=== FILE: README.md ===
# Food-expiry scanner: a Dafny model of its sequential core

The application photographs or live-streams food packaging and sends the images to a
multimodal recognition service. It then shows, edits, stores and alerts on the
expiry dates it gets back. Most of it is user interface, camera and network code. This
project models the four pieces of pure sequential logic in it and proves their
properties:

1. **Live-scan result application** (`live_scanner.dfy`, module `LiveScanner`). Each
   completed recognition call hands its records to `Apply`. `Apply` builds each record's
   identity key, `productName + "-" + (expiryDate || storageDuration)`. It drops
   records that have neither field, and it drops keys the session has already seen. It
   then appends the accepted batch to the session list, bumps the capture counter and
   decides which cues fire. A failed call is `None`. The result-application block never
   suspends, so overlapping calls become a sequence of `Apply` steps (`Run`). Closing
   hands the whole list to `onClose` (`Close`).
2. **Expiry status** (`date_utils.dfy`, module `DateUtils`). `getDynamicStatus` maps
   the day distance to the expiry date to `expired`/`soon`/`safe`, or to `unknown` when
   there is no date. It also gives a colour, a day count and a label. `formatDate`
   keeps the calendar-date part of an ISO timestamp.
3. **History and batch operations of the app** (`app.dfy`, module `App`). These are
   save, delete, edit, multi-photo upload accumulation with its error flag, the
   urgent-product notification decision and the notification toggle.
4. **Upload downscaling** (`image_utils.dfy`, module `ImageUtils`). This is the canvas
   size `compressImage` uses: the width is clamped to `maxWidth` (default 1200) and the
   height is scaled with `Math.round`. The default JPEG quality is 0.8.

Shared pieces: `types.dfy` (the records of `types.ts` and the `{ ...p, ...updates }`
merge), `seqs.dfy` (`Array.prototype.filter`) and `wrappers.dfy` (`Option`).

Modelling choices:
- Record fields that may be `null` or missing are `Option`s. The code tests strings
  with JavaScript truthiness, where `null`, `undefined` and `""` all count as absent, so
  "present" is `Some(s)` with `s != ""` (`Types.Present`).
- `storageDuration` is read by the live scanner and the result card, but the
  `ExpiryAnalysis` interface does not declare it. It is modelled as an optional field.
- Batch results are removed by object identity, so each batch entry carries an explicit
  identity, `App.Entry.ref`.
- Notification permission, the freshly generated product id and the current time are
  parameters.
- The day distance to an expiry date is a parameter `diffDays: string -> int`.

Three points of the code that the model follows as written:
- The identity key puts a `-` between the name and the date.
- A recognition call that completes after the scanner is closed is not discarded. The
  callback has no session guard, so it still updates the seen-set and calls `onCapture`.
  Such a batch reaches `onCapture` but is not in the list `onClose` received
  (`LiveScanner.ExampleLateCompletion`). `Apply` has no "closed" state for the same reason.
- The recognition service is declared with one argument and a single-object result,
  while both callers pass a mode and expect a list. The model follows the callers.

## Model

| member | source | states |
|---|---|---|
| `LiveScanner.KeyPart` | components/LiveScanner.tsx:75 | The part after the name is the expiry date when it is truthy, and otherwise the storage duration. |
| `LiveScanner.KeySameName` | components/LiveScanner.tsx:75 | `Key`, the identity key `${productName}-${expiryDate || storageDuration}`: two records with the same product name share an identity key exactly when their date parts agree, so the same product with another date is a new sighting. |
| `LiveScanner.Usable` | components/LiveScanner.tsx:76 | A record passes the usability test exactly when it has a truthy expiry date or storage duration. A usable record's key part is non-empty; an unusable record's is `""` or `"null"`. |
| `LiveScanner.Dedup` | components/LiveScanner.tsx:73-80 | Accepted records are usable, have pairwise-distinct keys that were not seen before, and come from the response. The seen-set afterwards is the old set plus exactly the keys of the accepted records, which is also the old set plus the keys of every usable record in the response. |
| `LiveScanner.AcceptedAtIff` | components/LiveScanner.tsx:76 | The record at a position passes the test exactly when it is usable and its key is neither in the seen-set nor the key of an earlier usable record of the same response. |
| `LiveScanner.DedupIsFirstOccurrence` | components/LiveScanner.tsx:74-79 | A record is accepted iff it is usable, its key was unseen, and no earlier usable record in the same response has that key. The accepted records keep response order. |
| `LiveScanner.Apply` | components/LiveScanner.tsx:70-96 | A failed call changes nothing, and so does an empty result. Otherwise the seen-set gains exactly the new items' keys, the list becomes old ++ newItems and the counter grows by their number. The success cue fires iff there are new items. The alert cue fires iff some new item is expired. `onCapture` gets exactly the new items, and only when there are some. |
| `LiveScanner.ApplyPreservesValid` | components/LiveScanner.tsx:16-20 | The session invariant survives every completion. The invariant: counter == list length, seen-set == keys of the list, keys unique, every record usable. |
| `LiveScanner.ApplyTwice` | components/LiveScanner.tsx:76-78 | The same response delivered again accepts nothing and leaves the session unchanged. |
| `LiveScanner.DedupAllSeen` | components/LiveScanner.tsx:76 | A response whose usable keys are all seen contributes no records. |
| `LiveScanner.Close` | components/LiveScanner.tsx:136-139 | For a valid session, what `onClose` receives holds as many records as the counter shows, with unique keys that are exactly the seen-set. Every record has a date or a storage duration. |
| `LiveScanner.Run` | components/LiveScanner.tsx:67-101 | Completions are applied in the order they finish, and each one reports at most one `onCapture` batch. |
| `LiveScanner.RunValid` | components/LiveScanner.tsx:67-101 | Any sequence of completions keeps the session invariant. |
| `LiveScanner.RunCaptures` | components/LiveScanner.tsx:86-92 | After any sequence of completions, the list is the initial list followed by the `onCapture` batches in the order they were reported. |
| `LiveScanner.RunCapturesNonEmpty` | components/LiveScanner.tsx:82-92 | `onCapture` is never called with an empty batch. |
| `LiveScanner.RunSeen` | components/LiveScanner.tsx:76-77 | The seen-set only grows, by exactly the keys of the usable records of every successful call. |
| `LiveScanner.SessionCompleteness` | components/LiveScanner.tsx:19-20 | From a fresh session, what `onClose` receives is exactly the concatenation of the `onCapture` batches reported before closing, with no key repeated. A call that completes after closing still reports a batch that `onClose` never sees (`ExampleLateCompletion`). The seen-set is the keys of all usable returned records. |
| `LiveScanner.SeenOrderIndependent` | components/LiveScanner.tsx:67-101 | The seen-set after two groups of completions does not depend on which group completed first. |
| `LiveScanner.ExampleFirstCall` | components/LiveScanner.tsx:72-93 | From a fresh session, a call returning milk captures the milk and sounds only the success cue. |
| `LiveScanner.ExampleSecondCall` | components/LiveScanner.tsx:72-93 | A call returning the milk again and an expired yogurt captures only the yogurt and sounds both cues. |
| `LiveScanner.ExampleFailedCallThenClose` | components/LiveScanner.tsx:95-96 | A failed third call does nothing, and closing then yields milk followed by yogurt. |
| `LiveScanner.ExampleLateCompletion` | components/LiveScanner.tsx:136-139 | Closing only stops the timer: after closing with the milk alone, a call in flight that returns the yogurt still calls `onCapture` with it, and the list `onClose` received does not contain it. |
| `DateUtils.Classify` | utils/dateUtils.ts:20-26 | For a present date, the kind is exactly one of expired (diffDays < 0), soon (0..7) or safe (> 7). The colour is red, orange or emerald to match, and `days == diffDays`. |
| `DateUtils.GetDynamicStatus` | utils/dateUtils.ts:9-27 | The status is unknown iff the date is null or empty, and then it is slate with no day count and the unknown label. Otherwise `days` is the distance to the date and the colour follows the kind. |
| `DateUtils.ClassifyMonotone` | utils/dateUtils.ts:20-26 | A later expiry date is never more urgent, in the order expired < soon < safe. |
| `DateUtils.Decimal` | utils/dateUtils.ts:23-25 | The day count in the labels is a non-empty run of decimal digits without a leading zero. |
| `DateUtils.DecimalRoundTrip` | utils/dateUtils.ts:23-25 | Reading the label's numeral back gives the day count. |
| `DateUtils.FormatDate` | utils/dateUtils.ts:29-31 | The result is the prefix of the timestamp before its first `T`: it contains no `T`, and it is followed by `T` or by the end of the string. |
| `DateUtils.FormatDateOfTimestamp` | utils/dateUtils.ts:29-31 | A date followed by `T` and a time formats to the date alone. |
| `DateUtils.FormatDateIdempotent` | utils/dateUtils.ts:29-31 | Formatting a formatted date changes nothing. |
| `ImageUtils.RoundDiv` | utils/imageUtils.ts:18 | `Math.round(num/den)` for non-negative integers is the integer r with r - 1/2 <= num/den < r + 1/2, so halves round up. |
| `ImageUtils.RoundDivUnique` | utils/imageUtils.ts:18 | Only one integer satisfies that rounding window. |
| `ImageUtils.TargetDims` | utils/imageUtils.ts:14-20 | An image no wider than `maxWidth` keeps its size. A wider one gets width `maxWidth` and the height rounded from `height*maxWidth/width`. The width never exceeds `maxWidth` and the height never grows. |
| `ImageUtils.ScaledHeightBound` | utils/imageUtils.ts:17-19 | Narrowing never yields a taller picture. |
| `ImageUtils.TargetDimsIdempotent` | utils/imageUtils.ts:14-20 | A resized image needs no further resizing. |
| `Types.MergeSpread` | App.tsx:134 | `Merge`, the spread `{ ...p, ...updates }`, key by key: every key the update carries takes the update's value, and every key it leaves out keeps the product's value. |
| `Types.MergeEmpty` | App.tsx:134 | Merging an empty `Partial<ScannedProduct>` leaves the product unchanged. |
| `Types.MergeIdempotent` | App.tsx:134 | Applying the same edit twice equals applying it once. |
| `Types.MergeThen` | App.tsx:134 | Two successive edits equal one edit in which the later keys win. |
| `Seqs.Filter` | App.tsx:123 | The filter keeps exactly the elements that pass the test, and never lengthens the sequence. |
| `Seqs.FilterAppend` | App.tsx:128 | Filtering distributes over concatenation, so the survivors keep their relative order. |
| `Seqs.FilterKeepsAll` | App.tsx:128 | A filter every element passes changes nothing. |
| `Seqs.FilterRemovesOne` | App.tsx:123 | Filtering out one rejected element leaves the two surrounding runs joined. |
| `Seqs.PositionsSnoc` | App.tsx:49-52 | Appending an element adds its position to the passing positions exactly when it passes the test. |
| `Seqs.FilterCount` | App.tsx:49-53 | The length of a filtered list is the number of positions whose element passes the test. |
| `App.SaveToHistory` | App.tsx:118-125 | Exactly one product is prepended: the analysis with the new id and timestamp. The earlier products follow unchanged and in order. The batch loses exactly the entries that are the saved object, and no other state changes. |
| `App.SaveRemovesOnlyThatEntry` | App.tsx:123 | When the saved object occurs once in the batch, the batch becomes the entries before it followed by those after it. |
| `App.DeleteFromHistory` | App.tsx:127-129 | No product with the id remains, every other product stays, and no other state changes. |
| `App.DeleteUnknownId` | App.tsx:127-129 | Deleting an id no product has changes nothing. |
| `App.SaveThenDelete` | App.tsx:118-129 | Deleting the product just saved under a fresh id restores the earlier history. |
| `App.UpdateAll` | App.tsx:134 | Length and order are preserved. Products with the id get the update's keys over their own, and every other product is unchanged. |
| `App.UpdateProduct` | App.tsx:131-136 | Only the history changes: its length is kept, matching products are merged with the update, and all others stay as they were. |
| `App.UpdateUnknownId` | App.tsx:131-135 | Editing an id no product has changes nothing. |
| `App.UpdateThenDelete` | App.tsx:127-135 | After an edit that keeps the id, deleting that id gives the same history as deleting without the edit. |
| `App.InitialEdits` | components/ResultCard.tsx:15-18 | A card's edit buffer starts as the item's name and its expiry date or `''`. Saving it unedited gives back the item exactly when the item's expiry date is not `null`; a `null` date comes back as `''`. |
| `App.Edited` | components/ResultCard.tsx:59 | `{ ...item, ...editValues }` is the item with the buffer's name and expiry date, and every other field unchanged. |
| `App.SaveFromCardAsWritten` | components/ResultCard.tsx:59 | As written, saving from a batch card passes a new spread object built from the unedited buffer, because batch cards have no edit control. The batch therefore stays exactly as it was while that copy of the item is prepended to the history. |
| `App.SavedCardStaysInBatch` | App.tsx:123 | As written, the card that was saved is still in the batch afterwards. |
| `App.SaveFromCard` | components/ResultCard.tsx:59 | Corrected save from a card: the card's item is prepended, the card's own entry leaves the batch, and every other entry stays. |
| `App.HandleFileChange` | App.tsx:63-116 | An empty selection changes nothing. Otherwise the batch is rebuilt as the in-order concatenation of the successful files' results, analysis ends, and the error is set exactly when the batch is empty. The history, view and notification flag are untouched. |
| `App.Accumulate` | App.tsx:98-103 | The batch comes out empty exactly when every file failed or returned no results. |
| `App.AccumulateMembers` | App.tsx:98-102 | An entry is in the batch iff it was returned for some successful file. |
| `App.AccumulateSkipsFailures` | App.tsx:81-103 | A file that failed contributes nothing to the batch. |
| `App.IsUrgent` | App.tsx:49-52 | A saved product is urgent iff it has an expiry date at most seven days away or already past. |
| `App.UrgentCount` | App.tsx:49-53 | The urgent count is the number of positions in the history that hold an urgent product. So it is at most the history's length, and it is positive iff some product is urgent. |
| `App.TriggerNotifications` | App.tsx:46-56 | A notification is sent iff notifications are on, permission is granted and some product is urgent. It carries exactly the urgent count, which is positive and at most the history's size. |
| `App.ToggleNotifications` | App.tsx:37-44 | Switching off always succeeds. Switching on happens exactly when permission is granted. Nothing else changes. |

## Left out

- The recognition service call (services/geminiService.ts) is a network call, with its prompt, schema and JSON parsing. Its outcome is a parameter: `None` for a thrown or failed call, otherwise the returned records.
- The camera, the 1.3-second capture timer and frame capture (components/LiveScanner.tsx:23-64, 104-106) are device I/O and timing. They are not modelled.
- The fire-and-forget concurrency of the live scan and the `isAnalyzingFrame` indicator (components/LiveScanner.tsx:67-69, 97-100) are not modelled. Completions are modelled only as a sequence of `Apply` steps.
- The "+N" animation and its timeout (components/LiveScanner.tsx:87-89) are presentation only.
- Sound synthesis (utils/soundUtils.ts) is audio I/O. Cues are modelled as flags.
- The browser notification API (utils/notificationUtils.ts) is browser I/O. Permission is a boolean, and a sent notification is the count it carries.
- localStorage persistence and its JSON round trip (App.tsx:17-35) are storage I/O.
- `crypto.randomUUID` and `Date.now` (App.tsx:119) become the `id` and `now` parameters. Freshness of the id is a premise only where a lemma needs it.
- JavaScript date parsing, local-midnight normalisation and the millisecond division with `Math.ceil` (utils/dateUtils.ts:12-18) are time-zone and floating-point semantics. They are abstracted as the `diffDays` parameter.
- DateUtils.GetDynamicStatus: an expiry string that JavaScript cannot parse yields a NaN distance. Every comparison then fails, and `getDynamicStatus` (utils/dateUtils.ts:20-26) reports the product as safe. An integer `diffDays` cannot express NaN, so this case is not modelled.
- `formatDate` takes a `Date` and calls `toISOString`. The model starts from the ISO string.
- ImageUtils.TargetDims: `Math.round` runs on a floating-point quotient. The model uses the exact rational, which agrees when `height*maxWidth` stays below 2^52. Between 2^52 and 2^53 the floating-point quotient can land exactly on a half and round up where the exact quotient rounds down (width 1201, `maxWidth` 1200, height 5027047003939).
- The canvas filter, `toDataURL` and the image load events (utils/imageUtils.ts:9-13, 22-38) are rendering I/O. So are the live scanner's 640-pixel frame scaling and JPEG quality.
- App.HandleFileChange: other handlers that run while the upload awaits are not interleaved. One example is saving a card mid-upload. The model runs the loop without interruption.
- The upload progress text (App.tsx:73, 78), view switching (App.tsx:143), the batch cancel button (App.tsx:191), purging the history (App.tsx:229) and the effect that triggers notifications on entering the history view (App.tsx:59-61) are presentation wiring. They are not modelled.
- A record with neither an expiry date nor a storage duration gets a key with `"null"` in the model, where JavaScript may render `undefined`. The key is still looked up in the seen-set (components/LiveScanner.tsx:76 tests `!seenProducts.has(uniqueKey)` first), but such a record then fails the usability test of the `&&` and its key is never added, so the key's spelling never affects the outcome.
- React rendering (components/ResultCard.tsx, components/ScannerHeader.tsx) is presentation. The one exception is the edit buffer that a card passes when saving, which is modelled.

## Findings

| source | as written | input that shows it | evidently intended | confidence | as-written member | corrected member |
|---|---|---|---|---|---|---|
| components/ResultCard.tsx:59 with App.tsx:123 | The card's save button calls `onSave({ ...item, ...editValues })`, which is a new object. `saveToHistory` then removes batch entries with `r !== analysis`, which no entry can fail, so nothing is removed. | A batch holding one result card; press its save button. The product is added to the history, but the card stays in the batch list. | The saved card leaves the batch list, as the reference filter in `saveToHistory` is written to do. | medium (not executed) | `App.SaveFromCardAsWritten` | `App.SaveFromCard` |

=== FILE: app.dfy ===
/**
 * App.tsx: the application state and the handlers that change it — saving a batch result
 * to the history, deleting and editing saved products, accumulating the results of a
 * multi-photo upload, and deciding whether an urgent-products notification is sent.
 */
module App {
  import opened Wrappers
  import opened Types
  import opened DateUtils
  import Seqs

  datatype View = Scanner | History

  /**
   * An element of `batchResults`. `saveToHistory` (App.tsx) removes saved results by
   * object identity, so each entry carries its identity `ref` explicitly.
   */
  datatype Entry = Entry(ref: nat, item: Analysis)

  datatype AppState = AppState(
    batchResults: seq<Entry>,
    isAnalyzing: bool,
    error: Option<string>,
    view: View,
    savedProducts: seq<Product>,
    notificationsEnabled: bool)

  /** Shown when a whole upload yields no usable label. */
  const NoLabelsError := "未辨識到任何食品標籤。請確保拍攝的是商品的日期資訊區。"

  predicate HasId(ps: seq<Product>, id: string) {
    exists i :: 0 <= i < |ps| && ps[i].id == id
  }

  /** The test `r !== analysis` for the object whose identity is `ref`. */
  function NotObject(ref: nat): Entry -> bool {
    (e: Entry) => e.ref != ref
  }

  /** The test `p.id !== id`. */
  function NotId(id: string): Product -> bool {
    (p: Product) => p.id != id
  }

  // ---------------------------------------------------------------- saving

  /**
   * `saveToHistory`: the analysis becomes a product with a new id and timestamp at the
   * head of the history, and the batch loses the entries that are this very object.
   */
  function SaveToHistory(st: AppState, analysis: Entry, id: string, now: int): (r: AppState)
    ensures |r.savedProducts| == |st.savedProducts| + 1
    ensures r.savedProducts[0] == Product(id, now, analysis.item)
    ensures r.savedProducts[1..] == st.savedProducts
    ensures forall i :: 0 <= i < |r.batchResults| ==>
      r.batchResults[i] in st.batchResults && r.batchResults[i].ref != analysis.ref
    ensures forall i :: 0 <= i < |st.batchResults| && st.batchResults[i].ref != analysis.ref ==>
      st.batchResults[i] in r.batchResults
    ensures r == st.(savedProducts := r.savedProducts, batchResults := r.batchResults)
  {
    st.(savedProducts := [Product(id, now, analysis.item)] + st.savedProducts,
        batchResults := Seqs.Filter(st.batchResults, NotObject(analysis.ref)))
  }

  /** Saving a batch entry whose identity is unique removes just that entry; the rest keep their order. */
  lemma SaveRemovesOnlyThatEntry(st: AppState, before: seq<Entry>, x: Entry, after: seq<Entry>, id: string, now: int)
    requires st.batchResults == before + [x] + after
    requires forall i :: 0 <= i < |before| ==> before[i].ref != x.ref
    requires forall i :: 0 <= i < |after| ==> after[i].ref != x.ref
    ensures SaveToHistory(st, x, id, now).batchResults == before + after
  {
    var keep := NotObject(x.ref);
    Seqs.FilterKeepsAll(before, keep);
    Seqs.FilterKeepsAll(after, keep);
    Seqs.FilterRemovesOne(before, x, after, keep);
  }

  // ---------------------------------------------------------------- deleting

  /** `deleteFromHistory`: drops the products carrying `id`. */
  function DeleteFromHistory(st: AppState, id: string): (r: AppState)
    ensures forall i :: 0 <= i < |r.savedProducts| ==>
      r.savedProducts[i].id != id && r.savedProducts[i] in st.savedProducts
    ensures forall i :: 0 <= i < |st.savedProducts| && st.savedProducts[i].id != id ==>
      st.savedProducts[i] in r.savedProducts
    ensures !HasId(r.savedProducts, id)
    ensures r == st.(savedProducts := r.savedProducts)
  {
    st.(savedProducts := Seqs.Filter(st.savedProducts, NotId(id)))
  }

  /** Deleting an id nobody has changes nothing. */
  lemma DeleteUnknownId(st: AppState, id: string)
    requires !HasId(st.savedProducts, id)
    ensures DeleteFromHistory(st, id) == st
  {
    Seqs.FilterKeepsAll(st.savedProducts, NotId(id));
  }

  /** Deleting the product just saved under a fresh id restores the previous history. */
  lemma SaveThenDelete(st: AppState, e: Entry, id: string, now: int)
    requires !HasId(st.savedProducts, id)
    ensures DeleteFromHistory(SaveToHistory(st, e, id, now), id).savedProducts == st.savedProducts
  {
    var keep := NotId(id);
    var p := Product(id, now, e.item);
    Seqs.FilterAppend([p], st.savedProducts, keep);
    Seqs.FilterKeepsAll(st.savedProducts, keep);
    assert Seqs.Filter([p], keep) == [];
  }

  // ---------------------------------------------------------------- editing

  /** The `map` in `updateProduct`: products with `id` get the patch merged in. */
  function UpdateAll(ps: seq<Product>, id: string, updates: Patch): (r: seq<Product>)
    ensures |r| == |ps|
    ensures forall i :: 0 <= i < |ps| && ps[i].id == id ==> r[i] == Merge(ps[i], updates)
    ensures forall i :: 0 <= i < |ps| && ps[i].id != id ==> r[i] == ps[i]
    decreases |ps|
  {
    if |ps| == 0 then []
    else [if ps[0].id == id then Merge(ps[0], updates) else ps[0]] + UpdateAll(ps[1..], id, updates)
  }

  /** `updateProduct`: only the history changes, and only at the products with `id`. */
  function UpdateProduct(st: AppState, id: string, updates: Patch): (r: AppState)
    ensures |r.savedProducts| == |st.savedProducts|
    ensures forall i :: 0 <= i < |st.savedProducts| && st.savedProducts[i].id == id ==>
      r.savedProducts[i] == Merge(st.savedProducts[i], updates)
    ensures forall i :: 0 <= i < |st.savedProducts| && st.savedProducts[i].id != id ==>
      r.savedProducts[i] == st.savedProducts[i]
    ensures r == st.(savedProducts := r.savedProducts)
  {
    st.(savedProducts := UpdateAll(st.savedProducts, id, updates))
  }

  /** Editing an id nobody has changes nothing. */
  lemma UpdateUnknownId(st: AppState, id: string, updates: Patch)
    requires !HasId(st.savedProducts, id)
    ensures UpdateProduct(st, id, updates) == st
  {
    assert UpdateProduct(st, id, updates).savedProducts == st.savedProducts;
  }

  /** An edit that keeps the id is erased by deleting that id: editing never resurrects or hides products. */
  lemma {:induction false} UpdateThenDelete(ps: seq<Product>, id: string, updates: Patch)
    requires updates.id.None?
    ensures Seqs.Filter(UpdateAll(ps, id, updates), NotId(id))
         == Seqs.Filter(ps, NotId(id))
    decreases |ps|
  {
    if |ps| > 0 {
      var r := UpdateAll(ps, id, updates);
      assert r[1..] == UpdateAll(ps[1..], id, updates);
      UpdateThenDelete(ps[1..], id, updates);
    }
  }

  // ---------------------------------------------------------------- result cards

  /** The edit buffer `editValues` of a result card. */
  datatype CardEdits = CardEdits(productName: string, expiryDate: string)

  /**
   * The buffer a card starts with: the item's name, and its expiry date or `''`. Saving
   * an unedited card gives back the item exactly when its expiry date is not `null`; a
   * missing date comes back as the empty string.
   */
  function InitialEdits(a: Analysis): (e: CardEdits)
    ensures e.productName == a.productName
    ensures Present(a.expiryDate) ==> e.expiryDate == a.expiryDate.value
    ensures !Present(a.expiryDate) ==> e.expiryDate == ""
    ensures Edited(a, e) == a <==> a.expiryDate.Some?
  {
    CardEdits(a.productName, if Present(a.expiryDate) then a.expiryDate.value else "")
  }

  /** `{ ...item, ...editValues }`: the item with the edited name and expiry date. */
  function Edited(a: Analysis, e: CardEdits): (r: Analysis)
    ensures r.productName == e.productName && r.expiryDate == Some(e.expiryDate)
    ensures r == a.(productName := r.productName, expiryDate := r.expiryDate)
  {
    a.(productName := e.productName, expiryDate := Some(e.expiryDate))
  }

  /**
   * Saving from a batch card as `ResultCard` and `saveToHistory` do it. A batch card has
   * no edit control, so its buffer is still `InitialEdits(entry.item)`. The card passes a
   * freshly spread object, whose identity `copyRef` is that of no batch entry, so nothing
   * leaves the batch.
   */
  function SaveFromCardAsWritten(st: AppState, entry: Entry, copyRef: nat, id: string, now: int): (r: AppState)
    requires forall i :: 0 <= i < |st.batchResults| ==> st.batchResults[i].ref != copyRef
    ensures r.batchResults == st.batchResults
    ensures r.savedProducts == [Product(id, now, Edited(entry.item, InitialEdits(entry.item)))] + st.savedProducts
  {
    Seqs.FilterKeepsAll(st.batchResults, NotObject(copyRef));
    SaveToHistory(st, Entry(copyRef, Edited(entry.item, InitialEdits(entry.item))), id, now)
  }

  /** The discrepancy: the saved card is still listed in the batch afterwards. */
  lemma SavedCardStaysInBatch(st: AppState, entry: Entry, copyRef: nat, id: string, now: int)
    requires entry in st.batchResults
    requires forall i :: 0 <= i < |st.batchResults| ==> st.batchResults[i].ref != copyRef
    ensures entry in SaveFromCardAsWritten(st, entry, copyRef, id, now).batchResults
  {
  }

  /**
   * Saving from a batch card as evidently intended: the card's item is saved and the
   * card's own entry, identified by its `ref`, leaves the batch.
   */
  function SaveFromCard(st: AppState, entry: Entry, id: string, now: int): (r: AppState)
    ensures r.savedProducts == [Product(id, now, Edited(entry.item, InitialEdits(entry.item)))] + st.savedProducts
    ensures forall i :: 0 <= i < |r.batchResults| ==>
      r.batchResults[i] in st.batchResults && r.batchResults[i].ref != entry.ref
    ensures forall i :: 0 <= i < |st.batchResults| && st.batchResults[i].ref != entry.ref ==>
      st.batchResults[i] in r.batchResults
    ensures entry !in r.batchResults
  {
    SaveToHistory(st, Entry(entry.ref, Edited(entry.item, InitialEdits(entry.item))), id, now)
  }

  // ---------------------------------------------------------------- uploads

  /** The batch built from per-file outcomes: `None` is a file that failed, and successful files contribute their results in file order. */
  function Accumulate(files: seq<Option<seq<Entry>>>): (r: seq<Entry>)
    ensures r == [] <==> forall i :: 0 <= i < |files| ==> files[i].None? || files[i].value == []
    decreases |files|
  {
    if |files| == 0 then []
    else
      var init := files[..|files| - 1];
      assert forall i :: 0 <= i < |init| ==> init[i] == files[i];
      Accumulate(init) + files[|files| - 1].GetOr([])
  }

  /**
   * `handleFileChange`: an empty selection changes nothing; otherwise the batch is
   * rebuilt from the files' results, analysis ends, and the error is set exactly when
   * the batch came out empty.
   */
  method HandleFileChange(st: AppState, files: seq<Option<seq<Entry>>>) returns (r: AppState)
    ensures |files| == 0 ==> r == st
    ensures |files| > 0 ==> r.batchResults == Accumulate(files)
    ensures |files| > 0 ==> !r.isAnalyzing
    ensures |files| > 0 ==> (r.error.Some? <==> |r.batchResults| == 0)
    ensures |files| > 0 && r.error.Some? ==> r.error.value == NoLabelsError
    ensures r.savedProducts == st.savedProducts && r.view == st.view
    ensures r.notificationsEnabled == st.notificationsEnabled
  {
    if |files| == 0 {
      return st;
    }
    var s := st.(isAnalyzing := true, error := None, batchResults := []);
    var i := 0;
    while i < |files|
      invariant 0 <= i <= |files|
      invariant s == st.(isAnalyzing := true, error := None, batchResults := Accumulate(files[..i]))
    {
      assert files[..i + 1][..i] == files[..i];
      match files[i] {
        case Some(results) =>
          if |results| > 0 {
            s := s.(batchResults := s.batchResults + results);
          }
        case None =>
      }
      i := i + 1;
    }
    assert files[..i] == files;
    r := s.(isAnalyzing := false, error := if |s.batchResults| == 0 then Some(NoLabelsError) else None);
  }

  /** Every batch entry came from some successful file, and every result of a successful file is in the batch. */
  lemma {:induction false} AccumulateMembers(files: seq<Option<seq<Entry>>>, e: Entry)
    ensures e in Accumulate(files) <==> exists i :: 0 <= i < |files| && files[i].Some? && e in files[i].value
    decreases |files|
  {
    if |files| > 0 {
      var init := files[..|files| - 1];
      AccumulateMembers(init, e);
      if e in Accumulate(files) && e !in Accumulate(init) {
        assert e in files[|files| - 1].GetOr([]);
      }
      if exists i :: 0 <= i < |files| && files[i].Some? && e in files[i].value {
        var i :| 0 <= i < |files| && files[i].Some? && e in files[i].value;
        if i < |files| - 1 {
          assert init[i] == files[i];
        }
      }
    }
  }

  /** Files that failed leave no trace in the batch. */
  lemma {:induction false} AccumulateSkipsFailures(a: seq<Option<seq<Entry>>>, b: seq<Option<seq<Entry>>>)
    ensures Accumulate(a + [None] + b) == Accumulate(a + b)
    decreases |b|
  {
    if |b| == 0 {
      assert (a + [None] + b)[..|a|] == a;
      assert a + b == a;
    } else {
      var b' := b[..|b| - 1];
      assert (a + [None] + b)[..|a + [None] + b| - 1] == a + [None] + b';
      assert (a + b)[..|a + b| - 1] == a + b';
      AccumulateSkipsFailures(a, b');
    }
  }

  // ---------------------------------------------------------------- notifications

  /**
   * A saved product is urgent when its status is expired or expiring soon, that is when
   * it has an expiry date at most a week away or already past.
   */
  function IsUrgent(p: Product, diffDays: string -> int): (b: bool)
    ensures b <==> Present(p.item.expiryDate) && diffDays(p.item.expiryDate.value) <= SoonWindow
  {
    var k := GetDynamicStatus(p.item.expiryDate, diffDays).kind;
    k == Expired || k == Soon
  }

  /** The number of urgent products in the history: how many positions hold one. */
  function UrgentCount(ps: seq<Product>, diffDays: string -> int): (n: nat)
    ensures n == |set i | 0 <= i < |ps| && IsUrgent(ps[i], diffDays)|
    ensures n <= |ps|
    ensures n > 0 <==> exists i :: 0 <= i < |ps| && IsUrgent(ps[i], diffDays)
  {
    var keep := (p: Product) => IsUrgent(p, diffDays);
    var urgent := Seqs.Filter(ps, keep);
    Seqs.FilterCount(ps, keep);
    assert Seqs.Positions(ps, keep) == set i | 0 <= i < |ps| && IsUrgent(ps[i], diffDays);
    assert |urgent| > 0 ==> urgent[0] in ps;
    |urgent|
  }

  /**
   * `triggerNotifications`: the count sent in the notification, if one is sent. It is
   * sent only with notifications enabled, permission granted and some urgent product.
   */
  function TriggerNotifications(st: AppState, permissionGranted: bool, diffDays: string -> int): (r: Option<nat>)
    ensures r.Some? <==>
      st.notificationsEnabled && permissionGranted &&
      exists i :: 0 <= i < |st.savedProducts| && IsUrgent(st.savedProducts[i], diffDays)
    ensures r.Some? ==> r.value == UrgentCount(st.savedProducts, diffDays)
    ensures r.Some? ==> 0 < r.value <= |st.savedProducts|
  {
    if !st.notificationsEnabled || !permissionGranted then None
    else
      var n := UrgentCount(st.savedProducts, diffDays);
      if n > 0 then Some(n) else None
  }

  /**
   * `handleNotificationToggle`: switching off always succeeds; switching on happens only
   * when the permission request is granted. Nothing else changes.
   */
  function ToggleNotifications(st: AppState, granted: bool): (r: AppState)
    ensures st.notificationsEnabled ==> !r.notificationsEnabled
    ensures !st.notificationsEnabled ==> (r.notificationsEnabled <==> granted)
    ensures r == st.(notificationsEnabled := r.notificationsEnabled)
  {
    if !st.notificationsEnabled then (if granted then st.(notificationsEnabled := true) else st)
    else st.(notificationsEnabled := false)
  }
}

=== FILE: date_utils.dfy ===
/**
 * utils/dateUtils.ts: the expiry status shown on every card and used to count urgent
 * products, and the ISO date formatter.
 *
 * Parsing the expiry string and comparing it with today's local midnight is abstracted
 * as `diffDays`, the whole number of days from today to the expiry date.
 */
module DateUtils {
  import opened Wrappers
  import opened Types

  datatype Kind = Expired | Soon | Safe | Unknown

  datatype Color = Red | Orange | Emerald | Slate

  /** An `ExpiryStatus`; its `label` field is called `caption` here (`label` is a Dafny keyword). */
  datatype Status = Status(caption: string, color: Color, days: Option<int>, kind: Kind)

  /** A date at most this many days away is reported as expiring soon. */
  const SoonWindow: int := 7

  /** The colour each kind is rendered in. */
  function ColorOf(k: Kind): Color {
    match k
    case Expired => Red
    case Soon => Orange
    case Safe => Emerald
    case Unknown => Slate
  }

  /** Urgency rank of a kind that a present date can yield: expired < soon < safe. */
  function Rank(k: Kind): nat {
    match k
    case Expired => 0
    case Soon => 1
    case Safe => 2
    case Unknown => 3
  }

  const UnknownLabel := "未知"
  const ExpiredLabel := "已過期"

  /** The status for a present expiry date `diffDays` days away. */
  function Classify(diffDays: int): (r: Status)
    ensures r.days == Some(diffDays)
    ensures r.kind != Unknown && r.color == ColorOf(r.kind)
    ensures r.kind == Expired <==> diffDays < 0
    ensures r.kind == Soon <==> 0 <= diffDays <= SoonWindow
    ensures r.kind == Safe <==> diffDays > SoonWindow
  {
    if diffDays < 0 then Status(ExpiredLabel, Red, Some(diffDays), Expired)
    else if diffDays <= SoonWindow then
      Status("即將過期 (" + Decimal(diffDays) + "天內)", Orange, Some(diffDays), Soon)
    else Status("保存期限內 (" + Decimal(diffDays) + "天)", Emerald, Some(diffDays), Safe)
  }

  /**
   * `getDynamicStatus`: a missing or empty date is unknown; otherwise the date is
   * classified by its distance from today, as computed by `diffDays`.
   */
  function GetDynamicStatus(expiry: Option<string>, diffDays: string -> int): (r: Status)
    ensures r.kind == Unknown <==> !Present(expiry)
    ensures !Present(expiry) ==> r.color == Slate && r.days == None && r.caption == UnknownLabel
    ensures Present(expiry) ==> r.days == Some(diffDays(expiry.value))
    ensures r.color == ColorOf(r.kind)
  {
    if !Present(expiry) then Status(UnknownLabel, Slate, None, Unknown)
    else Classify(diffDays(expiry.value))
  }

  /** A later expiry date is never more urgent. */
  lemma ClassifyMonotone(a: int, b: int)
    requires a <= b
    ensures Rank(Classify(a).kind) <= Rank(Classify(b).kind)
  {
  }

  // Decimal rendering of the day count inside the labels (`${diffDays}`).

  predicate IsDigit(c: char) {
    '0' <= c <= '9'
  }

  function DigitChar(d: nat): (c: char)
    requires d < 10
    ensures IsDigit(c)
  {
    "0123456789"[d]
  }

  function DigitValue(c: char): nat
    requires IsDigit(c)
  {
    (c - '0') as nat
  }

  /** The shortest decimal numeral of `n`. */
  function Decimal(n: nat): (s: string)
    ensures |s| >= 1
    ensures forall i :: 0 <= i < |s| ==> IsDigit(s[i])
    ensures |s| > 1 ==> s[0] != '0'
    decreases n
  {
    if n < 10 then [DigitChar(n)] else Decimal(n / 10) + [DigitChar(n % 10)]
  }

  /** The value of a string of decimal digits, most significant first. */
  function DecimalValue(s: string): nat
    requires forall i :: 0 <= i < |s| ==> IsDigit(s[i])
    decreases |s|
  {
    if |s| == 0 then 0 else DecimalValue(s[..|s| - 1]) * 10 + DigitValue(s[|s| - 1])
  }

  /** Reading the numeral back gives the number: the labels show `diffDays` exactly. */
  lemma {:induction false} DecimalRoundTrip(n: nat)
    ensures DecimalValue(Decimal(n)) == n
    decreases n
  {
    var s := Decimal(n);
    if n < 10 {
      assert DigitValue(DigitChar(n)) == n;
    } else {
      DecimalRoundTrip(n / 10);
      assert s[..|s| - 1] == Decimal(n / 10);
      assert DigitValue(DigitChar(n % 10)) == n % 10;
    }
  }

  /**
   * `formatDate`: the part of an ISO timestamp before the first `T`, i.e. the
   * `YYYY-MM-DD` calendar date (`split('T')[0]`).
   */
  function FormatDate(iso: string): (r: string)
    ensures |r| <= |iso| && r == iso[..|r|]
    ensures forall i :: 0 <= i < |r| ==> r[i] != 'T'
    ensures |r| == |iso| || iso[|r|] == 'T'
    decreases |iso|
  {
    if |iso| == 0 || iso[0] == 'T' then "" else [iso[0]] + FormatDate(iso[1..])
  }

  /** A date followed by `T` and a time formats to the date alone. */
  lemma {:induction false} FormatDateOfTimestamp(date: string, time: string)
    requires forall i :: 0 <= i < |date| ==> date[i] != 'T'
    ensures FormatDate(date + "T" + time) == date
    decreases |date|
  {
    if |date| == 0 {
      assert (date + "T" + time)[0] == 'T';
    } else {
      assert (date + "T" + time)[1..] == date[1..] + "T" + time;
      FormatDateOfTimestamp(date[1..], time);
      assert [date[0]] + date[1..] == date;
    }
  }

  /** Formatting is idempotent: a formatted date formats to itself. */
  lemma FormatDateIdempotent(iso: string)
    ensures FormatDate(FormatDate(iso)) == FormatDate(iso)
  {
  }
}

=== FILE: image_utils.dfy ===
/**
 * utils/imageUtils.ts: the canvas size `compressImage` draws an uploaded photo at before
 * it is JPEG-encoded and sent for recognition. Only the dimension arithmetic is modelled.
 */
module ImageUtils {

  /** Default width limit in pixels. */
  const DefaultMaxWidth: nat := 1200

  /** Default JPEG quality passed to the encoder. */
  const DefaultQuality: real := 0.8

  datatype Dims = Dims(width: nat, height: nat)

  /**
   * `Math.round(num / den)` for non-negative integers: the nearest integer, halves
   * rounded up.
   */
  function RoundDiv(num: nat, den: nat): (r: nat)
    requires den > 0
    ensures 2 * den * r <= 2 * num + den < 2 * den * r + 2 * den
  {
    (2 * num + den) / (2 * den)
  }

  /** Only one integer lies in the half-open window `RoundDiv` promises. */
  lemma RoundDivUnique(num: nat, den: nat, r': nat)
    requires den > 0
    requires 2 * den * r' <= 2 * num + den < 2 * den * r' + 2 * den
    ensures r' == RoundDiv(num, den)
  {
    var r := RoundDiv(num, den);
    if r' < r {
      MulMonotone(2 * den, r' + 1, r);
    } else if r' > r {
      MulMonotone(2 * den, r + 1, r');
    }
  }

  lemma MulMonotone(k: nat, a: nat, b: nat)
    requires a <= b
    ensures k * a <= k * b
  {
  }

  /**
   * The canvas size for an image of `width` x `height`: a wide image is narrowed to
   * `maxWidth` and its height scaled by the same factor; others keep their size.
   */
  function TargetDims(width: nat, height: nat, maxWidth: nat): (r: Dims)
    ensures width <= maxWidth ==> r == Dims(width, height)
    ensures width > maxWidth ==> r.width == maxWidth
    ensures width > maxWidth ==>
      2 * width * r.height <= 2 * height * maxWidth + width < 2 * width * r.height + 2 * width
    ensures r.width <= maxWidth
    ensures r.height <= height
  {
    if width > maxWidth then
      var h := RoundDiv(height * maxWidth, width);
      ScaledHeightBound(width, height, maxWidth, h);
      Dims(maxWidth, h)
    else Dims(width, height)
  }

  /** Narrowing never makes the picture taller. */
  lemma ScaledHeightBound(width: nat, height: nat, maxWidth: nat, h: nat)
    requires maxWidth < width
    requires 2 * width * h <= 2 * height * maxWidth + width
    ensures h <= height
  {
    if h > height {
      MulMonotone(2 * width, height + 1, h);
      MulMonotone(2 * height, maxWidth, width);
    }
  }

  /** Downscaling is idempotent: a resized image needs no further resizing. */
  lemma TargetDimsIdempotent(width: nat, height: nat, maxWidth: nat)
    ensures var r := TargetDims(width, height, maxWidth);
            TargetDims(r.width, r.height, maxWidth) == r
  {
  }
}

=== FILE: live_scanner.dfy ===
/**
 * components/LiveScanner.tsx: the live "radar" session. Every recognition call that
 * completes hands its records to `Apply`, which de-duplicates them against the session's
 * seen-set, appends the accepted ones to the session's list, and decides which feedback
 * cues fire and whether `onCapture` is called. Completions never suspend between the
 * seen-set check and the update, so overlapping calls are a sequence of `Apply` steps.
 */
module LiveScanner {
  import opened Wrappers
  import opened Types

  /**
   * The part of the identity key after the name: `expiryDate || storageDuration`. A
   * missing duration renders as `"null"`.
   */
  function KeyPart(r: Analysis): (k: string)
    ensures Present(r.expiryDate) ==> k == r.expiryDate.value
    ensures !Present(r.expiryDate) && r.storageDuration.Some? ==> k == r.storageDuration.value
  {
    if Present(r.expiryDate) then r.expiryDate.value
    else match r.storageDuration
      case Some(d) => d
      case None => "null"
  }

  /** The identity key `${productName}-${expiryDate || storageDuration}`. */
  function Key(r: Analysis): string {
    r.productName + "-" + KeyPart(r)
  }

  /**
   * Two records of the same product share a key exactly when they share the date part,
   * so a second sighting of a product with a different date is a new item.
   */
  lemma KeySameName(r1: Analysis, r2: Analysis)
    requires r1.productName == r2.productName
    ensures Key(r1) == Key(r2) <==> KeyPart(r1) == KeyPart(r2)
  {
    var n := |r1.productName| + 1;
    assert Key(r1)[n..] == KeyPart(r1) && Key(r2)[n..] == KeyPart(r2);
  }

  /**
   * A record is usable when `expiryDate || storageDuration` is truthy. A usable record's
   * key part is non-empty; an unusable record's is the empty string or `"null"`.
   */
  function Usable(r: Analysis): (b: bool)
    ensures b ==> KeyPart(r) != ""
    ensures !b ==> KeyPart(r) == "" || KeyPart(r) == "null"
  {
    Present(r.expiryDate) || Present(r.storageDuration)
  }

  /** The keys of all records in `rs`. */
  function KeySet(rs: seq<Analysis>): set<string> {
    set r | r in rs :: Key(r)
  }

  /** The keys of the usable records in `rs`. */
  function UsableKeys(rs: seq<Analysis>): set<string> {
    set r | r in rs && Usable(r) :: Key(r)
  }

  predicate DistinctKeys(rs: seq<Analysis>) {
    forall i, j :: 0 <= i < j < |rs| ==> Key(rs[i]) != Key(rs[j])
  }

  datatype Scan = Scan(seen: set<string>, newItems: seq<Analysis>)

  /**
   * The `forEach` over one response: a record is taken when it is usable and its key is
   * not yet seen, and its key is then marked seen, so later records of the same response
   * with that key are dropped.
   */
  function Dedup(seen: set<string>, results: seq<Analysis>): (r: Scan)
    ensures r.seen == seen + KeySet(r.newItems)
    ensures r.seen == seen + UsableKeys(results)
    ensures DistinctKeys(r.newItems)
    ensures forall i :: 0 <= i < |r.newItems| ==>
      r.newItems[i] in results && Usable(r.newItems[i]) && Key(r.newItems[i]) !in seen
    decreases |results|
  {
    if |results| == 0 then Scan(seen, [])
    else
      var init := results[..|results| - 1];
      var res := results[|results| - 1];
      assert results == init + [res];
      UsableKeysSnoc(init, res);
      var prev := Dedup(seen, init);
      if Key(res) !in prev.seen && Usable(res) then
        KeySetSnoc(prev.newItems, res);
        DistinctSnoc(prev.newItems, res);
        Scan(prev.seen + {Key(res)}, prev.newItems + [res])
      else prev
  }

  lemma UsableKeysSnoc(rs: seq<Analysis>, r: Analysis)
    ensures UsableKeys(rs + [r]) == UsableKeys(rs) + (if Usable(r) then {Key(r)} else {})
  {
    assert forall x :: x in rs + [r] <==> x in rs || x == r;
  }

  lemma KeySetSnoc(rs: seq<Analysis>, r: Analysis)
    ensures KeySet(rs + [r]) == KeySet(rs) + {Key(r)}
  {
    assert forall x :: x in rs + [r] <==> x in rs || x == r;
  }

  lemma DistinctSnoc(rs: seq<Analysis>, r: Analysis)
    requires DistinctKeys(rs) && Key(r) !in KeySet(rs)
    ensures DistinctKeys(rs + [r])
  {
    var t := rs + [r];
    forall i, j | 0 <= i < j < |t|
      ensures Key(t[i]) != Key(t[j])
    {
      if j == |rs| {
        assert t[i] in rs;
      }
    }
  }

  /**
   * Declarative reading of the de-duplication: the record at position `i` is accepted
   * exactly when it is usable, its key was not seen before the response arrived, and no
   * earlier usable record of the response has the same key.
   */
  ghost predicate AcceptedAt(seen: set<string>, results: seq<Analysis>, i: nat)
    requires i < |results|
  {
    && Usable(results[i])
    && Key(results[i]) !in seen
    && forall j :: 0 <= j < i && Usable(results[j]) ==> Key(results[j]) != Key(results[i])
  }

  /** The records of `results[..n]` accepted in the sense of `AcceptedAt`, in order. */
  ghost function Accepted(seen: set<string>, results: seq<Analysis>, n: nat): seq<Analysis>
    requires n <= |results|
  {
    if n == 0 then []
    else Accepted(seen, results, n - 1) + (if AcceptedAt(seen, results, n - 1) then [results[n - 1]] else [])
  }

  /** A record is accepted exactly when it is usable and its key is neither seen nor a usable earlier key. */
  lemma AcceptedAtIff(seen: set<string>, results: seq<Analysis>, i: nat)
    requires i < |results|
    ensures AcceptedAt(seen, results, i) <==>
      Usable(results[i]) && Key(results[i]) !in seen + UsableKeys(results[..i])
  {
    var init := results[..i];
    if Usable(results[i]) && Key(results[i]) in UsableKeys(init) {
      var r :| r in init && Usable(r) && Key(r) == Key(results[i]);
      var j :| 0 <= j < |init| && init[j] == r;
      assert results[j] == r;
    }
    forall j | 0 <= j < i && Usable(results[j])
      ensures Key(results[j]) in UsableKeys(init)
    {
      assert results[j] == init[j];
    }
  }

  /** `Dedup` keeps exactly the first usable occurrence of every unseen key, in response order. */
  lemma {:induction false} DedupIsFirstOccurrence(seen: set<string>, results: seq<Analysis>, n: nat)
    requires n <= |results|
    ensures Dedup(seen, results[..n]).newItems == Accepted(seen, results, n)
    decreases n
  {
    if n > 0 {
      var init := results[..n - 1];
      assert results[..n][..n - 1] == init;
      assert results[..n][n - 1] == results[n - 1];
      DedupIsFirstOccurrence(seen, results, n - 1);
      AcceptedAtIff(seen, results, n - 1);
    }
  }

  /** The live session's state: seen keys, accumulated records and the capture counter. */
  datatype Session = Session(seen: set<string>, all: seq<Analysis>, count: nat)

  /** The feedback cues: the scan chime and the expiry alert. */
  datatype Cues = Cues(success: bool, alert: bool)

  /** What one completed recognition call does: the next session, the accepted batch,
      the cues played and the argument of `onCapture`, if it is called. */
  datatype Step = Step(session: Session, newItems: seq<Analysis>, cues: Cues, captured: Option<seq<Analysis>>)

  /** The state a scanner opens with. */
  const Initial := Session({}, [], 0)

  /** The session invariant: every accepted record is usable, keys are unique, the
      seen-set is exactly their keys and the counter is the list's length. */
  predicate Valid(s: Session) {
    && s.count == |s.all|
    && s.seen == KeySet(s.all)
    && DistinctKeys(s.all)
    && forall i :: 0 <= i < |s.all| ==> Usable(s.all[i])
  }

  /**
   * Applies one completed recognition call: `None` is a call that threw, `Some(rs)` the
   * records it returned.
   */
  function Apply(s: Session, response: Option<seq<Analysis>>): (r: Step)
    ensures r.session.seen == s.seen + KeySet(r.newItems)
    ensures r.session.all == s.all + r.newItems
    ensures r.session.count == s.count + |r.newItems|
    ensures DistinctKeys(r.newItems)
    ensures forall i :: 0 <= i < |r.newItems| ==> Usable(r.newItems[i]) && Key(r.newItems[i]) !in s.seen
    ensures response.Some? ==> r.newItems == Dedup(s.seen, response.value).newItems
    ensures response.Some? ==> r.session.seen == s.seen + UsableKeys(response.value)
    ensures response.None? ==> r.session == s && r.newItems == []
    ensures r.cues.success <==> |r.newItems| > 0
    ensures r.cues.alert <==> exists i :: 0 <= i < |r.newItems| && r.newItems[i].isExpired
    ensures r.captured.Some? <==> |r.newItems| > 0
    ensures r.captured.Some? ==> r.captured.value == r.newItems
  {
    match response
    case None => Step(s, [], Cues(false, false), None)
    case Some(results) =>
      if |results| == 0 then Step(s, [], Cues(false, false), None)
      else
        var scan := Dedup(s.seen, results);
        var items := scan.newItems;
        if |items| == 0 then Step(s, [], Cues(false, false), None)
        else
          var alert := exists i :: 0 <= i < |items| && items[i].isExpired;
          Step(Session(scan.seen, s.all + items, s.count + |items|), items, Cues(true, alert), Some(items))
  }

  /** `Apply` keeps the session invariant. */
  lemma ApplyPreservesValid(s: Session, response: Option<seq<Analysis>>)
    requires Valid(s)
    ensures Valid(Apply(s, response).session)
  {
    var r := Apply(s, response);
    ConcatDistinct(s.all, r.newItems);
  }

  /** Joining two key-distinct lists with no key in common gives a key-distinct list. */
  lemma ConcatDistinct(a: seq<Analysis>, b: seq<Analysis>)
    requires DistinctKeys(a) && DistinctKeys(b)
    requires forall i :: 0 <= i < |b| ==> Key(b[i]) !in KeySet(a)
    ensures DistinctKeys(a + b)
    ensures KeySet(a + b) == KeySet(a) + KeySet(b)
  {
    forall i, j | 0 <= i < j < |a + b|
      ensures Key((a + b)[i]) != Key((a + b)[j])
    {
      if i < |a| && j >= |a| {
        assert a[i] in a;
      }
    }
  }

  /** The same response delivered twice adds nothing the second time. */
  lemma ApplyTwice(s: Session, response: Option<seq<Analysis>>)
    ensures var s1 := Apply(s, response).session;
            Apply(s1, response).newItems == [] && Apply(s1, response).session == s1
  {
    if response.Some? {
      var s1 := Apply(s, response).session;
      DedupAllSeen(s1.seen, response.value);
    }
  }

  /** A response whose usable keys are all seen contributes nothing. */
  lemma DedupAllSeen(seen: set<string>, results: seq<Analysis>)
    requires UsableKeys(results) <= seen
    ensures Dedup(seen, results).newItems == []
  {
  }

  /** Closing the scanner hands the whole accumulated list to `onClose`. */
  function Close(s: Session): (r: seq<Analysis>)
    ensures Valid(s) ==> |r| == s.count && KeySet(r) == s.seen
    ensures Valid(s) ==> DistinctKeys(r) && forall i :: 0 <= i < |r| ==> Usable(r[i])
  {
    s.all
  }

  /** The outcome of a sequence of completions: the final session and every `onCapture` argument. */
  datatype Trace = Trace(session: Session, captures: seq<seq<Analysis>>)

  /**
   * Completions applied in the order they finish. Each completion reports at most one
   * batch.
   */
  function Run(s: Session, responses: seq<Option<seq<Analysis>>>): (t: Trace)
    ensures |t.captures| <= |responses|
    decreases |responses|
  {
    if |responses| == 0 then Trace(s, [])
    else
      var prev := Run(s, responses[..|responses| - 1]);
      var step := Apply(prev.session, responses[|responses| - 1]);
      Trace(step.session, prev.captures + (if step.captured.Some? then [step.captured.value] else []))
  }

  /** Concatenation of a list of batches. */
  function Flatten(bs: seq<seq<Analysis>>): seq<Analysis>
    decreases |bs|
  {
    if |bs| == 0 then [] else Flatten(bs[..|bs| - 1]) + bs[|bs| - 1]
  }

  /** Every record returned by the successful calls among `responses`. */
  function Returned(responses: seq<Option<seq<Analysis>>>): seq<Analysis>
    decreases |responses|
  {
    if |responses| == 0 then []
    else Returned(responses[..|responses| - 1]) + responses[|responses| - 1].GetOr([])
  }

  /** A session stays valid through any sequence of completions. */
  lemma {:induction false} RunValid(s: Session, responses: seq<Option<seq<Analysis>>>)
    requires Valid(s)
    ensures Valid(Run(s, responses).session)
    decreases |responses|
  {
    if |responses| > 0 {
      var init := responses[..|responses| - 1];
      RunValid(s, init);
      ApplyPreservesValid(Run(s, init).session, responses[|responses| - 1]);
    }
  }

  /**
   * The session's list is what it started with followed by exactly the batches passed
   * to `onCapture`, in the order they were reported.
   */
  lemma {:induction false} RunCaptures(s: Session, responses: seq<Option<seq<Analysis>>>)
    ensures Run(s, responses).session.all == s.all + Flatten(Run(s, responses).captures)
    decreases |responses|
  {
    if |responses| > 0 {
      var init := responses[..|responses| - 1];
      RunCaptures(s, init);
      var prev := Run(s, init);
      var step := Apply(prev.session, responses[|responses| - 1]);
      var t := Run(s, responses);
      assert t.session == step.session;
      assert step.session.all == prev.session.all + step.newItems;
      if step.captured.Some? {
        assert t.captures == prev.captures + [step.newItems];
        FlattenSnoc(prev.captures, step.newItems);
      } else {
        assert t.captures == prev.captures;
      }
    }
  }

  /** `onCapture` is never called with an empty batch. */
  lemma {:induction false} RunCapturesNonEmpty(s: Session, responses: seq<Option<seq<Analysis>>>)
    ensures forall i :: 0 <= i < |Run(s, responses).captures| ==> |Run(s, responses).captures[i]| > 0
    decreases |responses|
  {
    if |responses| > 0 {
      var init := responses[..|responses| - 1];
      RunCapturesNonEmpty(s, init);
      var prev := Run(s, init);
      var step := Apply(prev.session, responses[|responses| - 1]);
      var t := Run(s, responses);
      if step.captured.Some? {
        assert t.captures == prev.captures + [step.newItems];
      } else {
        assert t.captures == prev.captures;
      }
    }
  }

  lemma FlattenSnoc(bs: seq<seq<Analysis>>, b: seq<Analysis>)
    ensures Flatten(bs + [b]) == Flatten(bs) + b
  {
    assert (bs + [b])[..|bs|] == bs;
  }

  /** The seen-set grows by exactly the keys of the usable records the calls returned. */
  lemma {:induction false} RunSeen(s: Session, responses: seq<Option<seq<Analysis>>>)
    ensures Run(s, responses).session.seen == s.seen + UsableKeys(Returned(responses))
    decreases |responses|
  {
    if |responses| > 0 {
      var init := responses[..|responses| - 1];
      RunSeen(s, init);
      UsableKeysAppend(Returned(init), responses[|responses| - 1].GetOr([]));
    }
  }

  lemma UsableKeysAppend(a: seq<Analysis>, b: seq<Analysis>)
    ensures UsableKeys(a + b) == UsableKeys(a) + UsableKeys(b)
  {
    forall k | k in UsableKeys(a + b)
      ensures k in UsableKeys(a) + UsableKeys(b)
    {
      var r :| r in a + b && Usable(r) && Key(r) == k;
    }
  }

  /**
   * What `onClose` receives after any sequence of completions of a fresh session is
   * exactly the concatenation of the `onCapture` batches, with no key repeated, and the
   * keys marked seen do not depend on the order in which the calls completed.
   */
  lemma SessionCompleteness(responses: seq<Option<seq<Analysis>>>)
    ensures Valid(Run(Initial, responses).session)
    ensures Close(Run(Initial, responses).session) == Flatten(Run(Initial, responses).captures)
    ensures DistinctKeys(Close(Run(Initial, responses).session))
    ensures forall i :: 0 <= i < |Run(Initial, responses).captures| ==> |Run(Initial, responses).captures[i]| > 0
    ensures Run(Initial, responses).session.seen == UsableKeys(Returned(responses))
  {
    var t := Run(Initial, responses);
    assert Valid(Initial);
    RunValid(Initial, responses);
    RunCaptures(Initial, responses);
    assert t.session.all == Flatten(t.captures);
    RunCapturesNonEmpty(Initial, responses);
    RunSeen(Initial, responses);
  }

  /** The seen-set after two groups of completions is the same in either order. */
  lemma SeenOrderIndependent(s: Session, a: seq<Option<seq<Analysis>>>, b: seq<Option<seq<Analysis>>>)
    ensures Run(s, a + b).session.seen == Run(s, b + a).session.seen
  {
    RunSeen(s, a + b);
    RunSeen(s, b + a);
    ReturnedAppend(a, b);
    ReturnedAppend(b, a);
    UsableKeysAppend(Returned(a), Returned(b));
    UsableKeysAppend(Returned(b), Returned(a));
  }

  lemma {:induction false} ReturnedAppend(a: seq<Option<seq<Analysis>>>, b: seq<Option<seq<Analysis>>>)
    ensures Returned(a + b) == Returned(a) + Returned(b)
    decreases |b|
  {
    if |b| > 0 {
      assert (a + b)[..|a + b| - 1] == a + b[..|b| - 1];
      ReturnedAppend(a, b[..|b| - 1]);
    } else {
      assert a + b == a;
    }
  }

  /** A record as the radar mode reports it: a name, an expiry date and the expired flag. */
  function Sighting(name: string, date: string, expired: bool): Analysis {
    Analysis(name, "", None, Some(date), expired, None, "", Low, "", None, None, true, None)
  }

  const Milk := Sighting("Milk", "2025-06-01", false)
  const Yogurt := Sighting("Yogurt", "2025-05-20", true)

  lemma ExampleKeys()
    ensures Usable(Milk) && Usable(Yogurt)
    ensures Key(Milk) == "Milk-2025-06-01" && Key(Yogurt) == "Yogurt-2025-05-20"
  {
  }

  lemma ExampleFirstDedup()
    ensures Dedup({}, [Milk]) == Scan({Key(Milk)}, [Milk])
  {
    ExampleKeys();
    assert [Milk][..0] == [];
  }

  lemma ExampleSecondDedup()
    ensures Dedup({Key(Milk)}, [Milk, Yogurt]) == Scan({Key(Milk), Key(Yogurt)}, [Yogurt])
  {
    ExampleKeys();
    assert [Milk, Yogurt][..1] == [Milk];
    assert [Milk][..0] == [];
    assert Dedup({Key(Milk)}, [Milk]) == Scan({Key(Milk)}, []);
  }

  /** The first call captures the milk and sounds only the success cue. */
  lemma ExampleFirstCall()
    ensures Apply(Initial, Some([Milk])).captured == Some([Milk])
    ensures Apply(Initial, Some([Milk])).cues == Cues(true, false)
    ensures Apply(Initial, Some([Milk])).session == Session({Key(Milk)}, [Milk], 1)
  {
    ExampleFirstDedup();
    assert !Milk.isExpired;
  }

  /** Milk again with an expired yogurt: only the yogurt is captured, and both cues sound. */
  lemma ExampleSecondCall()
    ensures Apply(Session({Key(Milk)}, [Milk], 1), Some([Milk, Yogurt])).captured == Some([Yogurt])
    ensures Apply(Session({Key(Milk)}, [Milk], 1), Some([Milk, Yogurt])).cues == Cues(true, true)
    ensures Apply(Session({Key(Milk)}, [Milk], 1), Some([Milk, Yogurt])).session
         == Session({Key(Milk), Key(Yogurt)}, [Milk, Yogurt], 2)
  {
    ExampleSecondDedup();
    var st := Apply(Session({Key(Milk)}, [Milk], 1), Some([Milk, Yogurt]));
    assert st.newItems == [Yogurt];
    assert st.newItems[0].isExpired;
  }

  /** A failed third call does nothing, and closing reports milk then yogurt. */
  lemma ExampleFailedCallThenClose()
    ensures var t := Apply(Session({Key(Milk), Key(Yogurt)}, [Milk, Yogurt], 2), None);
            t.captured == None && t.cues == Cues(false, false) && Close(t.session) == [Milk, Yogurt]
  {
  }

  /**
   * Closing does not stop a call already in flight: after the user closes with only the
   * milk, a completion that returns the yogurt still reaches `onCapture`, although the
   * list `onClose` received does not hold it.
   */
  lemma ExampleLateCompletion()
    ensures Close(Apply(Initial, Some([Milk])).session) == [Milk]
    ensures Apply(Apply(Initial, Some([Milk])).session, Some([Yogurt])).captured == Some([Yogurt])
    ensures Yogurt !in Close(Apply(Initial, Some([Milk])).session)
  {
    ExampleFirstCall();
    ExampleLateDedup();
    var st := Apply(Session({Key(Milk)}, [Milk], 1), Some([Yogurt]));
    assert st.newItems == [Yogurt];
  }

  lemma ExampleLateDedup()
    ensures Dedup({Key(Milk)}, [Yogurt]) == Scan({Key(Milk), Key(Yogurt)}, [Yogurt])
  {
    ExampleKeys();
    assert [Yogurt][..0] == [];
  }
}

=== FILE: seqs.dfy ===
/** Order-preserving sequence helpers shared by the session and history models. */
module Seqs {

  /** `Array.prototype.filter`: the elements satisfying `keep`, in their original order. */
  function Filter<T(!new)>(s: seq<T>, keep: T -> bool): (r: seq<T>)
    ensures |r| <= |s|
    ensures forall i :: 0 <= i < |r| ==> keep(r[i])
    ensures forall x :: x in r ==> x in s
    ensures forall i :: 0 <= i < |s| && keep(s[i]) ==> s[i] in r
    decreases |s|
  {
    if |s| == 0 then []
    else (if keep(s[0]) then [s[0]] else []) + Filter(s[1..], keep)
  }

  /** Filtering distributes over concatenation, so the survivors keep their relative order. */
  lemma {:induction false} FilterAppend<T(!new)>(a: seq<T>, b: seq<T>, keep: T -> bool)
    ensures Filter(a + b, keep) == Filter(a, keep) + Filter(b, keep)
    decreases |a|
  {
    if |a| == 0 {
      assert a + b == b;
    } else {
      assert (a + b)[1..] == a[1..] + b;
      FilterAppend(a[1..], b, keep);
    }
  }

  /** A filter that rejects nothing changes nothing. */
  lemma {:induction false} FilterKeepsAll<T(!new)>(s: seq<T>, keep: T -> bool)
    requires forall i :: 0 <= i < |s| ==> keep(s[i])
    ensures Filter(s, keep) == s
    decreases |s|
  {
    if |s| > 0 {
      FilterKeepsAll(s[1..], keep);
    }
  }

  /** Filtering out a single rejected element between two sequences the filter keeps whole. */
  lemma FilterRemovesOne<T(!new)>(a: seq<T>, x: T, b: seq<T>, keep: T -> bool)
    requires Filter(a, keep) == a && Filter(b, keep) == b
    requires !keep(x)
    ensures Filter(a + [x] + b, keep) == a + b
  {
    assert Filter([x], keep) == [] by { assert [x][1..] == []; }
    FilterAppend(a, [x], keep);
    assert Filter(a + [x], keep) == a;
    FilterAppend(a + [x], b, keep);
  }

  /** The positions of `s` whose element passes `keep`. */
  ghost function Positions<T>(s: seq<T>, keep: T -> bool): set<int> {
    set i | 0 <= i < |s| && keep(s[i])
  }

  /** Appending one element adds its position exactly when it passes the test. */
  lemma PositionsSnoc<T>(s: seq<T>, x: T, keep: T -> bool)
    ensures Positions(s + [x], keep) == Positions(s, keep) + (if keep(x) then {|s|} else {})
  {
    var t := s + [x];
    assert forall i :: 0 <= i < |s| ==> t[i] == s[i];
  }

  /** The filter's length is the number of positions whose element passes the test. */
  lemma {:induction false} FilterCount<T(!new)>(s: seq<T>, keep: T -> bool)
    ensures |Filter(s, keep)| == |Positions(s, keep)|
    decreases |s|
  {
    if |s| == 0 {
      assert Positions(s, keep) == {};
    } else {
      var init := s[..|s| - 1];
      var last := s[|s| - 1];
      assert s == init + [last];
      FilterAppend(init, [last], keep);
      FilterCount(init, keep);
      PositionsSnoc(init, last, keep);
      assert |init| !in Positions(init, keep);
      assert |Filter([last], keep)| == if keep(last) then 1 else 0;
    }
  }
}

=== FILE: types.dfy ===
/**
 * The records of types.ts: one recognised product label (`ExpiryAnalysis`), a saved
 * product (`ScannedProduct`), and the `Partial<ScannedProduct>` patch applied by an edit.
 */
module Types {
  import opened Wrappers

  datatype Confidence = High | Medium | Low

  datatype GroundingSource = GroundingSource(title: string, uri: string)

  /**
   * One recognised product. `storageDuration` is not declared by the interface but is read
   * by the live scanner and the result card, so it is carried as an optional field.
   */
  datatype Analysis = Analysis(
    productName: string,
    origin: string,
    manufactureDate: Option<string>,
    expiryDate: Option<string>,
    isExpired: bool,
    daysRemaining: Option<int>,
    rawTextFound: string,
    confidence: Confidence,
    summary: string,
    dateAmbiguityWarning: Option<string>,
    groundingSources: Option<seq<GroundingSource>>,
    isFoodProduct: bool,
    storageDuration: Option<string>)

  /** A product in the history: the analysis plus a unique id and a save timestamp (ms). */
  datatype Product = Product(id: string, scannedAt: int, item: Analysis)

  /** JavaScript truthiness of an optional string: `null`, `undefined` and `""` are all absent. */
  predicate Present(o: Option<string>) {
    o.Some? && o.value != ""
  }

  /** `Partial<ScannedProduct>`: `None` marks a key the patch does not carry. */
  datatype Patch = Patch(
    id: Option<string>,
    scannedAt: Option<int>,
    productName: Option<string>,
    origin: Option<string>,
    manufactureDate: Option<Option<string>>,
    expiryDate: Option<Option<string>>,
    isExpired: Option<bool>,
    daysRemaining: Option<Option<int>>,
    rawTextFound: Option<string>,
    confidence: Option<Confidence>,
    summary: Option<string>,
    dateAmbiguityWarning: Option<Option<string>>,
    groundingSources: Option<Option<seq<GroundingSource>>>,
    isFoodProduct: Option<bool>,
    storageDuration: Option<Option<string>>)

  /** The patch with no keys, `{}`. */
  const EmptyPatch := Patch(None, None, None, None, None, None, None, None, None, None, None, None, None, None, None)

  /** The object spread `{ ...p, ...u }`: every key the patch carries overrides the product's. */
  function Merge(p: Product, u: Patch): Product
  {
    var a := p.item;
    Product(
      u.id.GetOr(p.id),
      u.scannedAt.GetOr(p.scannedAt),
      Analysis(
        u.productName.GetOr(a.productName),
        u.origin.GetOr(a.origin),
        u.manufactureDate.GetOr(a.manufactureDate),
        u.expiryDate.GetOr(a.expiryDate),
        u.isExpired.GetOr(a.isExpired),
        u.daysRemaining.GetOr(a.daysRemaining),
        u.rawTextFound.GetOr(a.rawTextFound),
        u.confidence.GetOr(a.confidence),
        u.summary.GetOr(a.summary),
        u.dateAmbiguityWarning.GetOr(a.dateAmbiguityWarning),
        u.groundingSources.GetOr(a.groundingSources),
        u.isFoodProduct.GetOr(a.isFoodProduct),
        u.storageDuration.GetOr(a.storageDuration)))
  }

  /** Later keys win: `{ ...u1, ...u2 }` as a single patch. */
  function Then(u1: Patch, u2: Patch): Patch {
    Patch(
      if u2.id.Some? then u2.id else u1.id,
      if u2.scannedAt.Some? then u2.scannedAt else u1.scannedAt,
      if u2.productName.Some? then u2.productName else u1.productName,
      if u2.origin.Some? then u2.origin else u1.origin,
      if u2.manufactureDate.Some? then u2.manufactureDate else u1.manufactureDate,
      if u2.expiryDate.Some? then u2.expiryDate else u1.expiryDate,
      if u2.isExpired.Some? then u2.isExpired else u1.isExpired,
      if u2.daysRemaining.Some? then u2.daysRemaining else u1.daysRemaining,
      if u2.rawTextFound.Some? then u2.rawTextFound else u1.rawTextFound,
      if u2.confidence.Some? then u2.confidence else u1.confidence,
      if u2.summary.Some? then u2.summary else u1.summary,
      if u2.dateAmbiguityWarning.Some? then u2.dateAmbiguityWarning else u1.dateAmbiguityWarning,
      if u2.groundingSources.Some? then u2.groundingSources else u1.groundingSources,
      if u2.isFoodProduct.Some? then u2.isFoodProduct else u1.isFoodProduct,
      if u2.storageDuration.Some? then u2.storageDuration else u1.storageDuration)
  }

  /**
   * The spread rule key by key: a key the patch carries takes the patch's value, and a
   * key it leaves out keeps the product's.
   */
  lemma MergeSpread(p: Product, u: Patch)
    ensures u.id.Some? ==> Merge(p, u).id == u.id.value
    ensures u.scannedAt.Some? ==> Merge(p, u).scannedAt == u.scannedAt.value
    ensures u.productName.Some? ==> Merge(p, u).item.productName == u.productName.value
    ensures u.origin.Some? ==> Merge(p, u).item.origin == u.origin.value
    ensures u.manufactureDate.Some? ==> Merge(p, u).item.manufactureDate == u.manufactureDate.value
    ensures u.expiryDate.Some? ==> Merge(p, u).item.expiryDate == u.expiryDate.value
    ensures u.isExpired.Some? ==> Merge(p, u).item.isExpired == u.isExpired.value
    ensures u.daysRemaining.Some? ==> Merge(p, u).item.daysRemaining == u.daysRemaining.value
    ensures u.rawTextFound.Some? ==> Merge(p, u).item.rawTextFound == u.rawTextFound.value
    ensures u.confidence.Some? ==> Merge(p, u).item.confidence == u.confidence.value
    ensures u.summary.Some? ==> Merge(p, u).item.summary == u.summary.value
    ensures u.dateAmbiguityWarning.Some? ==> Merge(p, u).item.dateAmbiguityWarning == u.dateAmbiguityWarning.value
    ensures u.groundingSources.Some? ==> Merge(p, u).item.groundingSources == u.groundingSources.value
    ensures u.isFoodProduct.Some? ==> Merge(p, u).item.isFoodProduct == u.isFoodProduct.value
    ensures u.storageDuration.Some? ==> Merge(p, u).item.storageDuration == u.storageDuration.value
    ensures u.id.None? ==> Merge(p, u).id == p.id
    ensures u.scannedAt.None? ==> Merge(p, u).scannedAt == p.scannedAt
    ensures u.productName.None? ==> Merge(p, u).item.productName == p.item.productName
    ensures u.origin.None? ==> Merge(p, u).item.origin == p.item.origin
    ensures u.manufactureDate.None? ==> Merge(p, u).item.manufactureDate == p.item.manufactureDate
    ensures u.expiryDate.None? ==> Merge(p, u).item.expiryDate == p.item.expiryDate
    ensures u.isExpired.None? ==> Merge(p, u).item.isExpired == p.item.isExpired
    ensures u.daysRemaining.None? ==> Merge(p, u).item.daysRemaining == p.item.daysRemaining
    ensures u.rawTextFound.None? ==> Merge(p, u).item.rawTextFound == p.item.rawTextFound
    ensures u.confidence.None? ==> Merge(p, u).item.confidence == p.item.confidence
    ensures u.summary.None? ==> Merge(p, u).item.summary == p.item.summary
    ensures u.dateAmbiguityWarning.None? ==> Merge(p, u).item.dateAmbiguityWarning == p.item.dateAmbiguityWarning
    ensures u.groundingSources.None? ==> Merge(p, u).item.groundingSources == p.item.groundingSources
    ensures u.isFoodProduct.None? ==> Merge(p, u).item.isFoodProduct == p.item.isFoodProduct
    ensures u.storageDuration.None? ==> Merge(p, u).item.storageDuration == p.item.storageDuration
  {
  }

  /** Merging the empty patch leaves the product as it was. */
  lemma MergeEmpty(p: Product)
    ensures Merge(p, EmptyPatch) == p
  {
  }

  /** Re-applying the same edit changes nothing further. */
  lemma MergeIdempotent(p: Product, u: Patch)
    ensures Merge(Merge(p, u), u) == Merge(p, u)
  {
  }

  /** Two successive edits are one edit with the later keys winning. */
  lemma MergeThen(p: Product, u1: Patch, u2: Patch)
    ensures Merge(Merge(p, u1), u2) == Merge(p, Then(u1, u2))
  {
    var once := Merge(Merge(p, u1), u2).item;
    var both := Merge(p, Then(u1, u2)).item;
    assert once.productName == both.productName;
    assert once.origin == both.origin;
    assert once.manufactureDate == both.manufactureDate;
    assert once.expiryDate == both.expiryDate;
    assert once.isExpired == both.isExpired;
    assert once.daysRemaining == both.daysRemaining;
    assert once.rawTextFound == both.rawTextFound;
    assert once.confidence == both.confidence;
    assert once.summary == both.summary;
    assert once.dateAmbiguityWarning == both.dateAmbiguityWarning;
    assert once.groundingSources == both.groundingSources;
    assert once.isFoodProduct == both.isFoodProduct;
    assert once.storageDuration == both.storageDuration;
  }
}

=== FILE: wrappers.dfy ===
/** Optional values: JavaScript's `null`, `undefined` and absent object keys. */
module Wrappers {

  datatype Option<+T> = None | Some(value: T) {

    /** The carried value, or `default` when there is none (the `??` operator). */
    function GetOr(default: T): T {
      match this
      case Some(v) => v
      case None => default
    }
  }
}
